=== FILE: README.md ===
# LengoPay demo checkout: a Dafny model of its payment logic

This project models the decision logic of a small Next.js checkout that takes
payments through the LengoPay gateway:

- **Payment store** (`Store`, after `lib/supabase.ts`): products and payments
  as maps. `createPayment`, `updatePaymentStatus`, `getPaymentByPayId`,
  `getLatestPayment`, `getAllPayments` and `getProductById` are modelled as
  operations on those maps. A database error is a store flag (`online`), and
  every query turns it into `null` or `[]`.
- **Gateway client** (`Gateway`, after `lib/lengopay.ts`): `initializePayment`
  and `checkPaymentStatus` adapt an abstract HTTP outcome into the values the
  client returns. The outcome is `Ok(body)`, `NotOk(code, body)` or
  `Threw(message)`. The environment variables are a parameter.
- **Initiation route** (`Initialize`, after `app/api/lengopay/initialize/route.ts`):
  a chain of guards ending in a `PENDING` payment row. The handler is a pure
  function and also returns the effects it performed, in order: product
  lookup, gateway call, row creation.
- **Callback route** (`Callback`, after `app/api/lengopay/callback/route.ts`):
  it validates the payload, builds the metadata, makes one store update and
  acknowledges.
- **Status poller** (`Poller`, after `components/PaymentStatus.tsx`): each
  call of `pollStatus` is a pure `Tick`. `Drive` fires the ticks over a stream
  of fetch outcomes. It either freezes the attempt counter at its mount-time
  value, as the component does, or threads it from tick to tick.
- **Text helpers** (`Utils`, `Poller.ShortPayId`): `truncateText` and the
  shortened display of a `pay_id`.

Status strings are cast without checking in the source. They are modelled as
`Pending | Success | Failed | Cancelled | Other(text)`. Timestamps are opaque
natural numbers, because ISO-8601 texts of one format sort like the instants
they denote. Metadata is a `map<string, Value>`. A value may be `Undefined`,
which is what an absent JavaScript property holds. The store writes
`JsonObject(m)`: it drops undefined properties, as JSON serialisation does.

Three behaviours of the code are easy to misread:
- The callback route answers an incomplete payload with `400 { success: false }`.
  It does not acknowledge it.
- `updatePaymentStatus` replaces the stored metadata wholesale. It does not
  merge.
- The retry button of the pending panel fetches once. It does not restart
  polling (see Findings).

## Model

| member | source | states |
|---|---|---|
| Statuses.ParseStatus | lib/lengopay.ts:121 | The unchecked cast: the status's stored name is exactly the text received, so each of the four known names maps to its own status value. Any other text is kept verbatim as `Other`, which then never holds a known name. |
| Statuses.NameOfParse | lib/lengopay.ts:121 | Casting text to a status loses nothing: the status is stored and transmitted as exactly the text received. |
| Statuses.ParseOfName | lib/supabase.ts:26 | Every canonical status survives a trip through its stored text. |
| Statuses.ClassesOfCanonical | components/PaymentStatus.tsx:58-63 | The terminal and retryable classes are tested on a status's text, as the component's string comparisons are. On every value the cast produces, terminal means `SUCCESS` or `FAILED` and retryable means `PENDING` or `CANCELLED`. |
| Utils.TruncateText | lib/utils.ts:42-46 | Empty text gives `''`. Text of length at most `maxLength` is returned unchanged. Longer text gives its first `maxLength` characters plus `"..."` (length `maxLength + 3`), or just `"..."` for a negative bound. The result always starts with the first `min(len, max(maxLength, 0))` characters of the text. |
| Utils.TruncateTextDefault | lib/utils.ts:42 | With the default bound 50: text of at most 50 characters is unchanged. Longer text keeps 50 characters and gains an ellipsis, 53 characters in all. |
| Utils.TruncateTextLength | lib/utils.ts:42-46 | The result is at most 3 characters longer than the text and than the non-negative part of the bound. |
| Utils.TruncateTextIdempotent | lib/utils.ts:42-46 | Truncating twice with the same bound equals truncating once, for every bound. |
| Store.GetProductById | lib/supabase.ts:48-61 | Returns the product stored under that id. It returns `null` exactly when the id is unknown or the query fails, and never throws. |
| Store.GetPaymentByPayId | lib/supabase.ts:105-118 | Returns the payment stored under that `pay_id`, or `null` when there is none or the query fails. In a well-keyed store the row returned carries the requested `pay_id`. |
| Store.CreatePayment | lib/supabase.ts:64-77 | Succeeds exactly when the store is reachable and the `pay_id` is new. It then inserts the given fields with the assigned id and both timestamps set to now, leaves every other row alone and keeps the store well keyed. Otherwise it returns `null` and changes nothing. |
| Store.UpdatePaymentStatus | lib/supabase.ts:79-103 | On the matched row, `status`, `message` and `metadata` become exactly the given values and `updated_at` becomes now. `id`, `product_id`, `pay_id`, `amount`, `currency` and `created_at` are kept. An unknown `pay_id` or a failed query gives `null` and leaves the store unchanged. Products are never touched. |
| Store.UpdatePaymentStatusDefaults | lib/supabase.ts:79-84 | With both optional arguments omitted, the updated row has message `null` and metadata `{}`. |
| Store.UpdateTouchesOneRow | lib/supabase.ts:85-95 | Every row other than the one keyed by the given `pay_id` is present before and after the update exactly when it was, with the same contents. |
| Store.UpdateDropsOldMetadata | lib/supabase.ts:85-92 | The update does not merge: a stored metadata key that the new metadata lacks is gone afterwards. |
| Store.ProductName | lib/supabase.ts:147-151 | The joined display name is the product's name when the product exists and its name is non-empty. A missing product, or one whose name is empty, gives `'Produit inconnu'`. |
| Store.CreateThenRead | lib/supabase.ts:64-77 | After a successful `createPayment`, `getPaymentByPayId` on its `pay_id` returns exactly the row the insert returned. |
| Store.UpdateThenRead | lib/supabase.ts:79-103 | After a successful `updatePaymentStatus`, `getPaymentByPayId` on that `pay_id` returns exactly the row the update returned. |
| Store.GetLatestPayment | lib/supabase.ts:120-134 | Returns `null` exactly when the query fails or there are no payments. Otherwise it returns a stored payment whose `created_at` is at least that of every stored payment. |
| Store.OrderNewestFirst | lib/supabase.ts:136-140 | Lists every stored `pay_id` exactly once, ordered by non-increasing `created_at`. |
| Store.GetAllPayments | lib/supabase.ts:136-152 | Returns `[]` when the query fails. Otherwise it returns as many rows as stored payments, covering every stored payment and nothing else, in non-increasing `created_at` order. Each row carries its product's display name, or `'Produit inconnu'`. |
| Gateway.BaseUrl | lib/lengopay.ts:36 | The base URL is the configured one when it is non-empty, else `http://localhost:3000`. |
| Gateway.BuildInitRequest | lib/lengopay.ts:44-58 | The request carries `Basic <license key>`, the website id, the amount, the currency and the metadata. The return URL is `base + '/confirmation'` and the callback URL is `base + '/api/lengopay/callback'`. |
| Gateway.InitializePayment | lib/lengopay.ts:28-90 | Throws, with no request sent, exactly when the license key or website id is missing or empty. An OK response gives `success` with `pay_id` and `payment_url` passed through. Non-OK gives failure with the HTTP status as `status_code` and the body message or the default. An exception gives failure with the error message and no `status_code`. |
| Gateway.InitFailureStatusCode | lib/lengopay.ts:61-90 | A failed initialisation carries a `status_code` exactly when the gateway answered with a JSON body, and none after a transport exception or an answer whose body is not JSON. |
| Gateway.StatusUrl | lib/lengopay.ts:103 | The status query goes to the payments endpoint followed by `/` and the requested id. |
| Gateway.CheckPaymentStatus | lib/lengopay.ts:96-130 | Throws exactly when the license key is missing. It returns `null` for every non-OK response and every exception. For an OK response it returns the cast status, the amount, currency and metadata passed through, `pay_id` falling back to the requested id and `message` falling back to `'Statut du paiement récupéré'`. |
| Gateway.StatusQueryIgnoresWebsiteId | lib/lengopay.ts:97-99 | Only the license key decides whether a status query is attempted. The website id has no influence on the outcome. |
| Gateway.StatusAnswerIsComplete | lib/lengopay.ts:119-126 | An adapted status always has a non-empty `pay_id` and message. It differs from the requested id only when the gateway supplied another non-empty id. |
| Callback.CallbackMetadata | app/api/lengopay/callback/route.ts:38-44 | The written metadata has exactly the payload metadata's keys plus `transaction_id`, `callback_received_at`, `amount` and `currency`. These four take the payload's values and the receipt time, overriding same-named keys. All other keys keep the payload's values. |
| Callback.HandleCallback | app/api/lengopay/callback/route.ts:15-70 | A missing or empty `pay_id` or `status` gives 400 with no store call and the store unchanged. An unparseable body is acknowledged with no store call. A complete payload makes exactly one store update, keyed by its `pay_id` with its cast status, its message and the built metadata, and is acknowledged. The receipt time in the metadata and the store's `updated_at` are separate clock readings. The store changes only through that update. |
| Callback.AcknowledgedUnlessIncomplete | app/api/lengopay/callback/route.ts:25-69 | The reply is `200 { success: true }` exactly when the body is unparseable or the payload is complete, whatever the store holds or does. |
| Callback.UnknownPaymentAcknowledged | app/api/lengopay/callback/route.ts:47-62 | A complete callback for an unknown payment, or against a failing store, is acknowledged and creates nothing. |
| Callback.CallbackRecordContents | app/api/lengopay/callback/route.ts:33-45 | The matched record afterwards holds the payload's status and message (an absent message becomes `null`), the receipt time in its metadata, and the store's own write time as `updated_at`. `transaction_id`, `amount` and `currency` are present exactly when the payload supplied them. Any other key is present exactly when the payload's own metadata has it, so nothing of the old metadata survives. |
| Callback.TerminalStatusOverwritten | app/api/lengopay/callback/route.ts:33-45 | There is no transition guard: a stored `SUCCESS` or `FAILED` record takes the status of any later complete callback. |
| Callback.SuccessCallbackScenario | app/api/lengopay/callback/route.ts:33-62 | A `SUCCESS` callback with message "ok" for a stored `PENDING` payment ends with the record in `SUCCESS`, message "ok", the transaction reference and receipt time in its metadata, and an acknowledgement. |
| Initialize.GatewayMetadata | app/api/lengopay/initialize/route.ts:31-34 | The gateway receives exactly the metadata `{ product_id, product_name }` of the product. |
| Initialize.InitialPayment | app/api/lengopay/initialize/route.ts:48-61 | The initial row has the product's id, price and currency, the issued `pay_id`, status `PENDING`, message `'Paiement initialisé'`, and exactly the metadata keys `product_name`, `redirect_url` and `initialized_at`. |
| Initialize.FailureStatus | app/api/lengopay/initialize/route.ts:39-44 | The HTTP status of a gateway failure is the gateway's status code, or 500 when it is absent or 0. |
| Initialize.HandleInitialize | app/api/lengopay/initialize/route.ts:5-86 | Only a row-creation effect, always the third, can change the store, and only as `createPayment` does. The row created is always `PENDING` and comes with a 200. Every 200 follows a gateway call. Products are never touched. An unparseable body gives 500 `'Erreur interne du serveur'` with no effect. A created row carries exactly the metadata keys `product_name`, `redirect_url` and `initialized_at`, the last stamped with the route's own clock reading. |
| Initialize.MissingProductId | app/api/lengopay/initialize/route.ts:10-15 | A missing or empty product id gives 400 with no lookup, no gateway call and no write. |
| Initialize.UnknownProduct | app/api/lengopay/initialize/route.ts:18-25 | An unknown product, or an unreachable store, gives 404 `'Produit non trouvé'` after the lookup only: no gateway call and no write. |
| Initialize.MissingCredentialsIsInternalError | app/api/lengopay/initialize/route.ts:80-86 | Missing gateway credentials give 500 `'Erreur interne du serveur'` with no gateway request and no write. |
| Initialize.GatewayAskedForProductPrice | app/api/lengopay/initialize/route.ts:28-35 | Once the product is found and the credentials are present, the gateway is called with the product's price, its currency and `{ product_id, product_name }`. |
| Initialize.GatewayFailure | app/api/lengopay/initialize/route.ts:37-45 | A non-OK gateway answer with a JSON body gives its status code (500 if 0) with its message or the default. A transport failure, or an answer whose body is not JSON, gives 500. Neither creates a row. |
| Initialize.SuccessRecordsPendingPayment | app/api/lengopay/initialize/route.ts:47-79 | Gateway success with a new `pay_id` adds exactly one row and leaves all others unchanged. The row is `PENDING`, has the product's price, currency and id and message `'Paiement initialisé'`, and carries the issued `pay_id` and the database's id and creation time. Its metadata is exactly `product_name`, the gateway's redirect URL (left out when absent) and `initialized_at` from the route's clock. The reply is 200 with the gateway's redirect URL (or `''`) and `pay_id`. |
| Initialize.SuccessWithoutPayId | app/api/lengopay/initialize/route.ts:47-79 | Gateway success without a `pay_id` writes nothing and still answers 200 with the redirect URL or `''`. |
| Initialize.ReplyIgnoresPayments | app/api/lengopay/initialize/route.ts:47-79 | The reply does not depend on the payments table, so whether `createPayment` succeeds cannot change it. |
| Initialize.InitiationScenario | app/api/lengopay/initialize/route.ts:17-79 | Initiating for a product priced 1500000 GNF leaves a `PENDING` row of that amount under the issued `pay_id` and returns the gateway's redirect URL. |
| Poller.Mount | components/PaymentStatus.tsx:18-21 | The first render: no status, loading on, no error, counter 0, and (line 83) the first call of `pollStatus` due at once. |
| Poller.Teardown | components/PaymentStatus.tsx:86-91 | The effect's cleanup clears the mounted flag and the pending timer and changes nothing the component shows. |
| Poller.Screen | components/PaymentStatus.tsx:94-163 | The render chain: the spinner exactly while loading, else the error panel exactly when the error is truthy, else the pending panel exactly when `ShowsStillPending` holds, else the result card. |
| Poller.FetchStatus | components/PaymentStatus.tsx:24-45 | A 2xx answer is stored as the shown status and its status returned. A non-2xx answer sets the error to its message or the default, and an exception sets it to the error's message or the default. Both failures return `'ERROR'`. |
| Poller.Decide | components/PaymentStatus.tsx:58-74 | The tick reschedules exactly for a status whose text is `PENDING` or `CANCELLED` with the counter below 12. The inner "maximum reached" branch is unreachable. |
| Poller.Tick | components/PaymentStatus.tsx:51-80 | Before teardown there is one fetch. `SUCCESS`/`FAILED`, any other status, a failed fetch and a counter of at least 12 each stop polling and clear loading, with no timer. `PENDING`/`CANCELLED` below 12 schedule exactly one next tick, raise the counter by exactly 1 and keep loading. After teardown nothing changes. |
| Poller.Drive | components/PaymentStatus.tsx:47-92 | A run never performs more fetches than outcomes available. It never changes the mounted flag. It does nothing when no tick is due. |
| Poller.TornDownPollerIsInert | components/PaymentStatus.tsx:49-91 | Once teardown has cleared `isMounted` and the timer, no tick fetches or changes any state, whatever outcomes arrive. |
| Poller.ThreadedBound | components/PaymentStatus.tsx:58-67 | With the counter threaded, at most `13 - counter` further fetches happen and the counter never passes 12. Given enough outcomes the poller always stops with loading cleared. |
| Poller.MountedPollerIsBounded | components/PaymentStatus.tsx:12-15 | From mount with the counter threaded there are at most 13 fetches and 12 scheduled delays, that is 60 s of waiting. With 13 outcomes loading always ends. |
| Poller.ThreadedUnsettledStream | components/PaymentStatus.tsx:58-71 | With the counter threaded, a payment that never settles is fetched exactly `13 - counter` times. The counter ends at 12, polling stops, and the last answer is shown with the error unchanged. |
| Poller.FrozenUnsettledStream | components/PaymentStatus.tsx:58-92 | With the counter frozen at its mount-time value 0, a payment that never settles is fetched once per available outcome. The state counter grows by that number, loading stays on, and a next tick is always due. |
| Poller.Retry | components/PaymentStatus.tsx:143-147 | The retry button turns loading on, resets the counter and fetches once: a 2xx answer is shown with the error kept, any failure keeps the shown status and sets an error. It schedules nothing. |
| Poller.RetryStaysLoading | components/PaymentStatus.tsx:143-147 | After a retry from a stopped poller no further outcome is ever fetched and loading stays on. |
| Poller.Restart | components/PaymentStatus.tsx:143-147 | Corrected retry: loading on, counter reset to 0, and a tick due at once. The shown status and the error are kept. |
| Poller.RestartSettles | components/PaymentStatus.tsx:143-147 | A restarted poller with the counter threaded again makes at most 13 fetches. Once 13 outcomes are available it stops with loading cleared. |
| Poller.PendingPanelReachability | components/PaymentStatus.tsx:94-131 | Thirteen `PENDING` answers from mount end on the pending panel when the counter is threaded. With the counter frozen they leave the spinner on and a further tick due. |
| Poller.FrozenNeverStopsOnPending | components/PaymentStatus.tsx:58-92 | With the counter frozen at 0, a loading poller never comes to rest on the pending panel: it stops only on a status other than `PENDING` or `CANCELLED`, or on a failed fetch whose error is then shown, provided every thrown `Error` carries a non-empty message. |
| Poller.FrozenNeverShowsPendingPanel | components/PaymentStatus.tsx:130-131 | The component as written never renders the pending panel from mount, so its retry button is never offered, unless a fetch throws an `Error` with an empty message. |
| Poller.ShortPayId | components/PaymentStatus.tsx:187-189 | A `pay_id` longer than 20 characters is shown as its first 10 characters, `"..."` and its last 10 (23 in all). A shorter one is shown unchanged. |
| Poller.ShortPayIdIdempotent | components/PaymentStatus.tsx:187-189 | Shortening a displayed identifier again changes nothing, and a displayed identifier is never longer than 23 characters. |

## Left out

- The status-query route `app/api/lengopay/status/[payId]/route.ts` (the reconciler) is not modelled. The poller takes that route's answers as an opaque stream of fetch outcomes.
- `app/api/lengopay/latest/route.ts` is not modelled: it only passes the result of `getLatestPayment` through.
- `getProducts` and `initializeDatabase` in `lib/supabase.ts`, `lib/db-init.ts` and `scripts/init-db.js` are not modelled: they list products or seed data.
- Real I/O is replaced by parameters. This covers `fetch`, the Supabase client, environment variables and JSON parsing. A body that is not JSON becomes `Unparseable` for requests and `Threw` for responses.
- Timers and the clock: `setTimeout` becomes a `due` flag with one tick per stream element. Each `new Date().toISOString()` becomes an opaque `Timestamp` parameter. Separate readings are separate parameters: the callback's receipt time and the store's `updated_at`, and the initiation route's `initialized_at` and the database-assigned `created_at`/`updated_at`. No order between them is assumed.
- Teardown while a fetch is in flight is not modelled. The continuation after `await fetchStatus()` may still update state and arm a timer, whose tick then returns at the `isMounted` check.
- The outer `catch` of `pollStatus` (`components/PaymentStatus.tsx:75-79`) is not modelled: `fetchStatus` catches every exception itself, so it cannot be reached.
- Locale formatting (`formatPrice`, `formatDate`, `toLocaleString`), all rendering, navigation, styling and the other pages are not modelled.
- Utils.TruncateText: the bound is an integer. A fractional JavaScript bound (2.5, say) is compared as a fraction but cut at its integer part by `substring`; no file of the core calls `truncateText` with one.
- Amounts and prices are integers. JavaScript numbers with fractions are not modelled.
- Metadata values are scalars. Nested objects inside a payload's metadata are not modelled.
- A callback `status` that is not a string cannot be expressed. The payload's `status` is an optional string.
- Uniqueness of `pay_id` is assumed, since the payments schema is not part of this model. A duplicate `pay_id` is treated as the insert error under which `createPayment` returns `null`.
- Concurrent writes to one payment (callback and status check, last write wins) are not modelled.
- Logging (`console.*`) is not modelled.
- Utils.TruncateText: lengths and cut points are counted in Unicode characters, while JavaScript's `length` and `substring` count UTF-16 code units. The two agree on text without characters outside the Basic Multilingual Plane (such as emoji); on such text JavaScript may cut where the model does not, or split a surrogate pair.
- Utils.TruncateTextDefault: the same character-versus-UTF-16 gap as `TruncateText`; 30 emoji are 60 code units in JavaScript and are cut there, but are 30 characters and kept whole in the model.
- Poller.ShortPayId: the same character-versus-UTF-16 gap; a `pay_id` with characters outside the Basic Multilingual Plane may be shortened in JavaScript but kept whole in the model.
- Gateway.StatusBody makes the gateway's `status`, `amount` and `currency` mandatory, while `checkPaymentStatus` passes an absent one through as `undefined`.
- A `productId` or `pay_id` that is not a string (a number in the JSON body, say) cannot be expressed: both are optional strings.
- The store accepts any status text, `Other` included, because the payments schema (and any constraint on its `status` column) is not part of this model.

## Findings

| source | as written | input that shows it | evidently intended | confidence | as-written member | corrected member |
|---|---|---|---|---|---|---|
| components/PaymentStatus.tsx:58-92 | Each tick compares the `pollCount` captured when the effect ran. The effect depends only on `payId`, so the value read is always the mount-time 0 and the bound test never fires. | The status endpoint answers `PENDING` on every tick. | Stop after 12 scheduled retries (60 s), as the constant's comment says. | high; not executed | Poller.FrozenUnsettledStream | Poller.ThreadedBound |
| components/PaymentStatus.tsx:143-147 | The retry button sets loading on, resets the counter and fetches once. Nothing clears loading again or schedules a tick. | Pressing "Vérifier à nouveau" on the pending panel. The defect is latent: with the counter frozen the panel is never rendered (Poller.FrozenNeverShowsPendingPanel), except after twelve `PENDING` answers followed by a thrown `Error` with an empty message. It shows once the first row is corrected. | Restart polling from attempt 0. | medium; not executed | Poller.RetryStaysLoading | Poller.RestartSettles |

=== FILE: basics.dfy ===
/** Shared vocabulary of the payment demo: optional values, the loosely typed
    JSON values kept in payment metadata, the JavaScript truthiness rules the
    handlers branch on, and the abstract outcomes of I/O calls. */
module Basics {

  datatype Option<+T> = None | Some(value: T)

  /** An opaque instant. `new Date().toISOString()` produces strings of one
      fixed format, which order like the instants they denote, so a natural
      number stands for both the instant and its ISO-8601 text. */
  type Timestamp = nat

  /** A scalar JSON value as it appears in a metadata object. `Undefined` is
      the JavaScript value of a missing property; JSON serialisation drops
      properties holding it. `Stamp` is the ISO-8601 text of an instant. */
  datatype Value = Undefined | Null | Bool(b: bool) | Num(n: int) | Str(s: string) | Stamp(at: Timestamp)

  /** An open key/value bag, the `metadata` column of a payment. */
  type Metadata = map<string, Value>

  /** The object JSON serialisation actually transmits: every property whose
      value is `undefined` is omitted, every other one is kept as is. */
  function JsonObject(m: Metadata): (r: Metadata)
    ensures forall k :: k in r <==> k in m && m[k] != Undefined
    ensures forall k :: k in r ==> r[k] == m[k]
  {
    map k | k in m && m[k] != Undefined :: m[k]
  }

  /** An optional string property that JavaScript treats as true: present and non-empty. */
  predicate Present(s: Option<string>)
  {
    s.Some? && s.value != ""
  }

  /** An optional string property, or the fallback when it is absent or empty (JavaScript's `||`). */
  function OrElse(s: Option<string>, fallback: string): (r: string)
    ensures Present(s) ==> r == s.value
    ensures !Present(s) ==> r == fallback
  {
    if Present(s) then s.value else fallback
  }

  /** An optional string carried into a JSON object: `undefined` when absent. */
  function ToValue(s: Option<string>): Value
  {
    match s
    case Some(x) => Str(x)
    case None => Undefined
  }

  /** What one `fetch` followed by `response.json()` can come to: a response
      with a 2xx status and its parsed body, a response with another status and
      its parsed body, or an exception (network failure or a body that is not
      JSON). An exception carries `Some(message)` when it is an `Error`
      instance and `None` otherwise. */
  datatype HttpOutcome<B> = Ok(body: B) | NotOk(code: int, body: B) | Threw(message: Option<string>)

  /** An incoming request body after `await request.json()`: the parsed
      object, or the exception a body that is not JSON raises. */
  datatype Request<T> = Parsed(body: T) | Unparseable

  /** The result of a JavaScript call that can throw. */
  datatype Exc<T> = Raise(reason: string) | Return(value: T)

  /** The message of a caught exception: its own when it is an `Error`, else the fallback. */
  function ErrorMessage(message: Option<string>, fallback: string): (r: string)
    ensures message.Some? ==> r == message.value
    ensures message.None? ==> r == fallback
  {
    match message
    case Some(m) => m
    case None => fallback
  }
}

=== FILE: callback.dfy ===
/** The gateway's asynchronous callback (`POST /api/lengopay/callback`). An
    incomplete payload is refused with 400; every other request, including
    one whose body cannot be parsed and one whose payment is unknown or whose
    store write fails, is acknowledged with `{ success: true }`. */
module Callback {
  import opened Basics
  import opened Statuses
  import opened Store

  const IncompleteMessage := "Données de callback incomplètes"

  const TransactionIdKey := "transaction_id"
  const ReceivedAtKey := "callback_received_at"
  const AmountKey := "amount"
  const CurrencyKey := "currency"

  /** The keys the handler writes over whatever the payload's metadata holds. */
  const CallbackKeys: set<string> := {TransactionIdKey, ReceivedAtKey, AmountKey, CurrencyKey}

  /** `LengoPayCallbackRequest` as parsed from JSON: any field may be absent. */
  datatype Payload = Payload(
    payId: Option<string>,
    status: Option<string>,
    amount: Value,
    currency: Value,
    message: Option<string>,
    transactionId: Value,
    metadata: Option<Metadata>)

  /** `200 { success: true }` or `400 { message, success: false }`. */
  datatype Reply = Ack | Incomplete(message: string)

  function HttpStatus(r: Reply): int
  {
    if r.Ack? then 200 else 400
  }

  /** A call the handler makes on the payment store. */
  datatype StoreCall = UpdateCall(payId: string, status: Status, message: Option<string>, metadata: Metadata)

  /** The store afterwards, the store calls made, and the reply. */
  datatype Handled = Handled(db: Db, calls: seq<StoreCall>, reply: Reply)

  /** A payload the handler accepts: both `pay_id` and `status` present and non-empty. */
  predicate Complete(p: Payload)
  {
    Present(p.payId) && Present(p.status)
  }

  /** The metadata the handler writes: the payload's own metadata (or none)
      with the four callback keys written over it. */
  function CallbackMetadata(p: Payload, now: Timestamp): (m: Metadata)
    ensures forall k :: k in m <==> k in CallbackKeys || (p.metadata.Some? && k in p.metadata.value)
    ensures m[TransactionIdKey] == p.transactionId && m[ReceivedAtKey] == Stamp(now)
    ensures m[AmountKey] == p.amount && m[CurrencyKey] == p.currency
    ensures p.metadata.Some? ==> forall k :: k in p.metadata.value && k !in CallbackKeys ==> m[k] == p.metadata.value[k]
  {
    var base: Metadata := if p.metadata.Some? then p.metadata.value else map[];
    base[TransactionIdKey := p.transactionId][ReceivedAtKey := Stamp(now)]
        [AmountKey := p.amount][CurrencyKey := p.currency]
  }

  /** `POST` of the callback route. `now` is the route's reading of the clock
      (`callback_received_at`); `writeAt` is the separate reading the store
      takes for `updated_at`. */
  function HandleCallback(db: Db, req: Request<Payload>, now: Timestamp, writeAt: Timestamp): (r: Handled)
    ensures r.reply.Incomplete? <==> req.Parsed? && !Complete(req.body)
    ensures r.reply.Incomplete? ==> r.reply.message == IncompleteMessage
    ensures r.calls == [] ==> r.db == db
    ensures req.Unparseable? ==> r.calls == [] && r.reply == Ack
    ensures req.Parsed? && !Complete(req.body) ==> r.calls == [] && r.db == db
    ensures req.Parsed? && Complete(req.body) ==>
      var p := req.body;
      var call := UpdateCall(p.payId.value, ParseStatus(p.status.value), p.message, CallbackMetadata(p, now));
      && r.calls == [call]
      && r.db == UpdatePaymentStatus(db, call.payId, call.status, call.message, call.metadata, writeAt).db
      && r.reply == Ack
  {
    match req
    case Unparseable => Handled(db, [], Ack)
    case Parsed(p) =>
      if !Complete(p) then Handled(db, [], Incomplete(IncompleteMessage))
      else
        var call := UpdateCall(p.payId.value, ParseStatus(p.status.value), p.message, CallbackMetadata(p, now));
        var written := UpdatePaymentStatus(db, call.payId, call.status, call.message, call.metadata, writeAt);
        Handled(written.db, [call], Ack)
  }

  /** The provider is refused only for an incomplete payload: an unparseable
      body, an unknown payment and a failing store are all acknowledged. */
  lemma AcknowledgedUnlessIncomplete(db: Db, req: Request<Payload>, now: Timestamp, writeAt: Timestamp)
    ensures HandleCallback(db, req, now, writeAt).reply == Ack <==> req.Unparseable? || Complete(req.body)
    ensures HttpStatus(HandleCallback(db, req, now, writeAt).reply) == 200 <==> req.Unparseable? || Complete(req.body)
  {
  }

  /** A callback for a payment the store does not hold (or cannot reach) is
      acknowledged and creates nothing. */
  lemma UnknownPaymentAcknowledged(db: Db, p: Payload, now: Timestamp, writeAt: Timestamp)
    requires Complete(p)
    requires !db.online || p.payId.value !in db.payments
    ensures HandleCallback(db, Parsed(p), now, writeAt).reply == Ack
    ensures HandleCallback(db, Parsed(p), now, writeAt).db == db
  {
  }

  /** What the matched record holds afterwards: the payload's status and
      message (an absent message is stored as `null`), and as metadata the
      payload's own metadata overridden by the callback keys, with every
      property whose value is absent left out. Nothing of the old metadata
      survives unless the payload repeats it. */
  lemma CallbackRecordContents(db: Db, p: Payload, now: Timestamp, writeAt: Timestamp, k: string)
    requires Complete(p) && db.online && p.payId.value in db.payments
    ensures var row := HandleCallback(db, Parsed(p), now, writeAt).db.payments[p.payId.value];
      && row.status == ParseStatus(p.status.value)
      && row.message == p.message
      && row.updatedAt == writeAt
      && row.metadata[ReceivedAtKey] == Stamp(now)
      && (TransactionIdKey in row.metadata <==> p.transactionId != Undefined)
      && (AmountKey in row.metadata <==> p.amount != Undefined)
      && (CurrencyKey in row.metadata <==> p.currency != Undefined)
      && (k !in CallbackKeys ==>
            (k in row.metadata <==> p.metadata.Some? && k in p.metadata.value && p.metadata.value[k] != Undefined))
  {
  }

  /** No transition guard: a record that already reached `SUCCESS` or
      `FAILED` takes whatever status the next callback carries. */
  lemma TerminalStatusOverwritten(db: Db, p: Payload, now: Timestamp, writeAt: Timestamp)
    requires Complete(p) && db.online && p.payId.value in db.payments
    requires IsTerminal(db.payments[p.payId.value].status)
    ensures HandleCallback(db, Parsed(p), now, writeAt).db.payments[p.payId.value].status == ParseStatus(p.status.value)
  {
  }

  /** A `SUCCESS` callback for a stored `PENDING` payment with message "ok",
      amount 100 in GNF: the record turns to `SUCCESS` with message "ok", its
      metadata gains the transaction reference and the receipt time, and the
      provider is acknowledged. */
  lemma SuccessCallbackScenario(now: Timestamp, writeAt: Timestamp)
    ensures
      var before := PaymentRecord("r1", "p1", "x", 100, "GNF", Pending, Some("Paiement initialisé"), map[], 0, 0);
      var db := Db(map[], map["x" := before], true);
      var p := Payload(Some("x"), Some("SUCCESS"), Num(100), Str("GNF"), Some("ok"), Str("t-1"), None);
      var r := HandleCallback(db, Parsed(p), now, writeAt);
      && r.reply == Ack
      && r.db.payments["x"].status == Success
      && r.db.payments["x"].message == Some("ok")
      && r.db.payments["x"].metadata[TransactionIdKey] == Str("t-1")
      && r.db.payments["x"].metadata[ReceivedAtKey] == Stamp(now)
  {
  }
}

=== FILE: gateway.dfy ===
/** The payment-gateway client of `lib/lengopay.ts`, as adapters from an
    abstract HTTP outcome to the values `initializePayment` and
    `checkPaymentStatus` return. The environment variables are a parameter;
    the HTTP exchange itself is the `HttpOutcome` argument. */
module Gateway {
  import opened Basics
  import opened Statuses

  const PaymentsEndpoint := "https://portal.lengopay.com/api/v1/payments"
  const DefaultBaseUrl := "http://localhost:3000"
  const ReturnPath := "/confirmation"
  const CallbackPath := "/api/lengopay/callback"
  const MissingCredentials := "Les informations d'authentification LengoPay sont manquantes"
  const InitFailedMessage := "Échec de l'initialisation du paiement"
  const UnknownErrorMessage := "Une erreur inconnue est survenue"
  const StatusFetchedMessage := "Statut du paiement récupéré"

  /** `LENGOPAY_LICENSE_KEY`, `LENGOPAY_WEBSITE_ID`, `NEXT_PUBLIC_BASE_URL`. */
  datatype Env = Env(licenseKey: Option<string>, websiteId: Option<string>, baseUrl: Option<string>)

  /** The JSON body `initializePayment` posts, with its `Authorization` header. */
  datatype InitRequest = InitRequest(
    authorization: string,
    websiteId: string,
    amount: int,
    currency: string,
    returnUrl: string,
    callbackUrl: string,
    metadata: Metadata)

  /** The fields `initializePayment` reads from the gateway's JSON answer. */
  datatype InitBody = InitBody(payId: Option<string>, paymentUrl: Option<string>, message: Option<string>)

  /** `InitPaymentResponse`. */
  datatype InitPaymentResponse = InitPaymentResponse(
    success: bool,
    redirectUrl: Option<string>,
    payId: Option<string>,
    message: Option<string>,
    statusCode: Option<int>)

  /** The fields `checkPaymentStatus` reads from the gateway's JSON answer. */
  datatype StatusBody = StatusBody(
    payId: Option<string>,
    status: string,
    amount: int,
    currency: string,
    message: Option<string>,
    metadata: Option<Metadata>)

  /** `PaymentStatus`, the adapted answer of a status query. */
  datatype PaymentStatus = PaymentStatus(
    payId: string,
    status: Status,
    amount: int,
    currency: string,
    message: string,
    metadata: Option<Metadata>)

  /** A request that was sent and what the call then returned. */
  datatype Exchange<Q, A> = Exchange(request: Q, answer: A)

  /** The configured public base URL, or the local development server when it is unset or empty. */
  function BaseUrl(env: Env): (base: string)
    ensures Present(env.baseUrl) ==> base == env.baseUrl.value
    ensures !Present(env.baseUrl) ==> base == DefaultBaseUrl
  {
    OrElse(env.baseUrl, DefaultBaseUrl)
  }

  /** The request `initializePayment` sends once the credentials are known. */
  function BuildInitRequest(env: Env, amount: int, currency: string, metadata: Metadata): (q: InitRequest)
    requires Present(env.licenseKey) && Present(env.websiteId)
    ensures q.returnUrl == BaseUrl(env) + ReturnPath
    ensures q.callbackUrl == BaseUrl(env) + CallbackPath
    ensures q.authorization == "Basic " + env.licenseKey.value && q.websiteId == env.websiteId.value
    ensures q.amount == amount && q.currency == currency && q.metadata == metadata
  {
    InitRequest("Basic " + env.licenseKey.value, env.websiteId.value, amount, currency,
                BaseUrl(env) + ReturnPath, BaseUrl(env) + CallbackPath, metadata)
  }

  /** `initializePayment(amount, currency, metadata)`: throws before any
      request when a credential is missing; otherwise sends the request and
      adapts the gateway's outcome. */
  function InitializePayment(env: Env, amount: int, currency: string, metadata: Metadata,
                             http: HttpOutcome<InitBody>): (r: Exc<Exchange<InitRequest, InitPaymentResponse>>)
    ensures r.Raise? <==> !Present(env.licenseKey) || !Present(env.websiteId)
    ensures r.Raise? ==> r.reason == MissingCredentials
    ensures r.Return? ==> r.value.request == BuildInitRequest(env, amount, currency, metadata)
    ensures r.Return? ==> (r.value.answer.success <==> http.Ok?)
    ensures r.Return? && http.Ok? ==>
      r.value.answer == InitPaymentResponse(true, http.body.paymentUrl, http.body.payId, None, None)
    ensures r.Return? && http.NotOk? ==>
      r.value.answer == InitPaymentResponse(false, None, None,
                                            Some(OrElse(http.body.message, InitFailedMessage)), Some(http.code))
    ensures r.Return? && http.Threw? ==>
      r.value.answer == InitPaymentResponse(false, None, None,
                                            Some(ErrorMessage(http.message, UnknownErrorMessage)), None)
  {
    if !Present(env.licenseKey) || !Present(env.websiteId) then Raise(MissingCredentials)
    else
      var request := BuildInitRequest(env, amount, currency, metadata);
      var answer :=
        match http
        case Ok(data) => InitPaymentResponse(true, data.paymentUrl, data.payId, None, None)
        case NotOk(code, data) =>
          InitPaymentResponse(false, None, None, Some(OrElse(data.message, InitFailedMessage)), Some(code))
        case Threw(m) => InitPaymentResponse(false, None, None, Some(ErrorMessage(m, UnknownErrorMessage)), None);
      Return(Exchange(request, answer))
  }

  /** A failed initialisation carries a status code exactly when the gateway
      answered; a transport failure has none. */
  lemma InitFailureStatusCode(env: Env, amount: int, currency: string, metadata: Metadata,
                              http: HttpOutcome<InitBody>)
    requires InitializePayment(env, amount, currency, metadata, http).Return?
    ensures var a := InitializePayment(env, amount, currency, metadata, http).value.answer;
      !a.success ==> (a.statusCode.Some? <==> http.NotOk?)
  {
  }

  /** The URL a status query is sent to. */
  function StatusUrl(payId: string): (url: string)
    ensures |url| == |PaymentsEndpoint| + 1 + |payId|
    ensures url[..|PaymentsEndpoint|] == PaymentsEndpoint
    ensures url[|PaymentsEndpoint|..] == "/" + payId
  {
    PaymentsEndpoint + "/" + payId
  }

  /** `checkPaymentStatus(payId)`: throws when the license key is missing;
      otherwise answers `null` for any non-2xx response and any exception, and
      the adapted status for a 2xx response. */
  function CheckPaymentStatus(env: Env, payId: string, http: HttpOutcome<StatusBody>):
    (r: Exc<Exchange<string, Option<PaymentStatus>>>)
    ensures r.Raise? <==> !Present(env.licenseKey)
    ensures r.Raise? ==> r.reason == MissingCredentials
    ensures r.Return? ==> r.value.request == StatusUrl(payId)
    ensures r.Return? ==> (r.value.answer.Some? <==> http.Ok?)
    ensures r.Return? && http.Ok? ==>
      var s := r.value.answer.value;
      && s.payId == OrElse(http.body.payId, payId)
      && s.status == ParseStatus(http.body.status)
      && s.message == OrElse(http.body.message, StatusFetchedMessage)
      && s.amount == http.body.amount && s.currency == http.body.currency
      && s.metadata == http.body.metadata
  {
    if !Present(env.licenseKey) then Raise(MissingCredentials)
    else
      var answer :=
        match http
        case Ok(data) =>
          Some(PaymentStatus(OrElse(data.payId, payId), ParseStatus(data.status), data.amount, data.currency,
                             OrElse(data.message, StatusFetchedMessage), data.metadata))
        case NotOk(_, _) => None
        case Threw(_) => None;
      Return(Exchange(StatusUrl(payId), answer))
  }

  /** The website id plays no part in a status query: only the license key
      decides whether it is attempted. */
  lemma StatusQueryIgnoresWebsiteId(env: Env, websiteId: Option<string>, payId: string,
                                    http: HttpOutcome<StatusBody>)
    ensures CheckPaymentStatus(env.(websiteId := websiteId), payId, http) == CheckPaymentStatus(env, payId, http)
  {
  }

  /** An adapted status always names a payment and always carries a message:
      the fallbacks apply exactly when the gateway left the field out or empty. */
  lemma StatusAnswerIsComplete(env: Env, payId: string, http: HttpOutcome<StatusBody>)
    requires payId != ""
    requires CheckPaymentStatus(env, payId, http).Return?
    ensures var a := CheckPaymentStatus(env, payId, http).value.answer;
      a.Some? ==> a.value.payId != "" && a.value.message != ""
                  && (a.value.payId == payId <==> !Present(http.body.payId) || http.body.payId.value == payId)
  {
  }
}

=== FILE: initialize.dfy ===
/** Payment initiation (`POST /api/lengopay/initialize`): a chain of guards
    (product id given, product found, gateway call succeeded) ending in a
    `PENDING` payment row when the gateway hands out a `pay_id`. The handler
    is a pure function of the store, the environment, the request, the
    gateway's HTTP outcome, the route's reading of the clock (`now`, stored as
    `initialized_at`), and the row id and instant (`dbNow`, stored as
    `created_at` and `updated_at`) the database would assign; the effects it performs are listed in order. */
module Initialize {
  import opened Basics
  import opened Statuses
  import opened Store
  import opened Gateway

  const ProductIdRequired := "ID du produit requis"
  const ProductNotFound := "Produit non trouvé"
  const InternalError := "Erreur interne du serveur"
  const InitialMessage := "Paiement initialisé"

  /** `{ productId }` as parsed from JSON. */
  datatype Body = Body(productId: Option<string>)

  /** `200 { success: true, redirect_url, pay_id }` or an error status with
      `{ message }` (and `status_code` when the gateway supplied one). */
  datatype Reply =
    | Started(redirectUrl: string, payId: Option<string>)
    | Rejected(code: int, message: string, statusCode: Option<int>)

  function HttpStatus(r: Reply): int
  {
    if r.Started? then 200 else r.code
  }

  datatype Effect =
    | LookupProduct(productId: string)
    | CallGateway(request: InitRequest)
    | RecordPayment(payment: NewPayment)

  datatype Handled = Handled(db: Db, effects: seq<Effect>, reply: Reply)

  /** The metadata sent to the gateway: `{ product_id, product_name }`. */
  function GatewayMetadata(pr: Product): (m: Metadata)
    ensures m.Keys == {"product_id", "product_name"}
    ensures m["product_id"] == Str(pr.id) && m["product_name"] == Str(pr.name)
  {
    map["product_id" := Str(pr.id), "product_name" := Str(pr.name)]
  }

  /** The row written after a successful initiation. */
  function InitialPayment(pr: Product, payId: string, redirectUrl: Option<string>, now: Timestamp): (p: NewPayment)
    ensures p.productId == pr.id && p.payId == payId
    ensures p.amount == pr.price && p.currency == pr.currency
    ensures p.status == Pending && p.message == Some(InitialMessage)
    ensures p.metadata.Keys == {"product_name", "redirect_url", "initialized_at"}
    ensures p.metadata["product_name"] == Str(pr.name) && p.metadata["initialized_at"] == Stamp(now)
    ensures p.metadata["redirect_url"] == ToValue(redirectUrl)
  {
    NewPayment(pr.id, payId, pr.price, pr.currency, Pending, Some(InitialMessage),
               map["product_name" := Str(pr.name), "redirect_url" := ToValue(redirectUrl),
                   "initialized_at" := Stamp(now)])
  }

  /** The HTTP status of a gateway failure: the gateway's own code, or 500 when there is none (or it is 0). */
  function FailureStatus(statusCode: Option<int>): (code: int)
    ensures statusCode.Some? && statusCode.value != 0 ==> code == statusCode.value
    ensures statusCode.None? || statusCode.value == 0 ==> code == 500
  {
    if statusCode.Some? && statusCode.value != 0 then statusCode.value else 500
  }

  /** `POST` of the initialize route. */
  function HandleInitialize(db: Db, env: Env, req: Request<Body>, http: HttpOutcome<InitBody>,
                            now: Timestamp, rowId: string, dbNow: Timestamp): (r: Handled)
    ensures req.Unparseable? ==> r.effects == [] && r.db == db && r.reply == Rejected(500, InternalError, None)
    ensures r.db.products == db.products && r.db.online == db.online
    ensures r.db != db ==> |r.effects| == 3 && r.effects[2].RecordPayment?
    ensures forall i :: 0 <= i < |r.effects| ==> (r.effects[i].RecordPayment? <==> i == 2)
    ensures |r.effects| == 3 ==> r.db == CreatePayment(db, r.effects[2].payment, rowId, dbNow).db
    ensures |r.effects| == 3 ==> r.effects[2].payment.status == Pending && r.reply.Started?
    ensures |r.effects| == 3 ==> r.effects[2].payment.metadata.Keys == {"product_name", "redirect_url", "initialized_at"}
    ensures |r.effects| == 3 ==> r.effects[2].payment.metadata["initialized_at"] == Stamp(now)
    ensures r.reply.Started? ==> |r.effects| >= 2 && r.effects[1].CallGateway?
  {
    match req
    case Unparseable => Handled(db, [], Rejected(500, InternalError, None))
    case Parsed(body) =>
      if !Present(body.productId) then Handled(db, [], Rejected(400, ProductIdRequired, None))
      else
        var id := body.productId.value;
        var lookup := LookupProduct(id);
        match GetProductById(db, id)
        case None => Handled(db, [lookup], Rejected(404, ProductNotFound, None))
        case Some(pr) =>
          match InitializePayment(env, pr.price, pr.currency, GatewayMetadata(pr), http)
          case Raise(_) => Handled(db, [lookup], Rejected(500, InternalError, None))
          case Return(Exchange(q, res)) =>
            var called := [lookup, CallGateway(q)];
            if !res.success then
              Handled(db, called,
                      Rejected(FailureStatus(res.statusCode), OrElse(res.message, InitFailedMessage), res.statusCode))
            else
              var reply := Started(OrElse(res.redirectUrl, ""), res.payId);
              if Present(res.payId) then
                var row := InitialPayment(pr, res.payId.value, res.redirectUrl, now);
                Handled(CreatePayment(db, row, rowId, dbNow).db, called + [RecordPayment(row)], reply)
              else Handled(db, called, reply)
  }

  /** Without a product id: 400, and nothing is looked up, called or written. */
  lemma MissingProductId(db: Db, env: Env, body: Body, http: HttpOutcome<InitBody>,
                         now: Timestamp, rowId: string, dbNow: Timestamp)
    requires !Present(body.productId)
    ensures var r := HandleInitialize(db, env, Parsed(body), http, now, rowId, dbNow);
      r.effects == [] && r.db == db && r.reply == Rejected(400, ProductIdRequired, None)
  {
  }

  /** An unknown product (or an unreachable store): 404 after the lookup, no
      gateway call, nothing written. */
  lemma UnknownProduct(db: Db, env: Env, id: string, http: HttpOutcome<InitBody>,
                       now: Timestamp, rowId: string, dbNow: Timestamp)
    requires id != ""
    requires !db.online || id !in db.products
    ensures var r := HandleInitialize(db, env, Parsed(Body(Some(id))), http, now, rowId, dbNow);
      r.effects == [LookupProduct(id)] && r.db == db && r.reply == Rejected(404, ProductNotFound, None)
  {
  }

  /** Missing gateway credentials make the gateway client throw before any
      request: the handler answers 500 with the generic message. */
  lemma MissingCredentialsIsInternalError(db: Db, env: Env, id: string, http: HttpOutcome<InitBody>,
                                          now: Timestamp, rowId: string, dbNow: Timestamp)
    requires id != "" && db.online && id in db.products
    requires !Present(env.licenseKey) || !Present(env.websiteId)
    ensures var r := HandleInitialize(db, env, Parsed(Body(Some(id))), http, now, rowId, dbNow);
      r.effects == [LookupProduct(id)] && r.db == db && r.reply == Rejected(500, InternalError, None)
  {
  }

  /** When the gateway is called, it is asked for the product's own price and
      currency, with `{ product_id, product_name }` as metadata. */
  lemma GatewayAskedForProductPrice(db: Db, env: Env, id: string, http: HttpOutcome<InitBody>,
                                    now: Timestamp, rowId: string, dbNow: Timestamp)
    requires id != "" && db.online && id in db.products
    requires Present(env.licenseKey) && Present(env.websiteId)
    ensures var r := HandleInitialize(db, env, Parsed(Body(Some(id))), http, now, rowId, dbNow);
      var pr := db.products[id];
      && |r.effects| >= 2
      && r.effects[..2] == [LookupProduct(id), CallGateway(BuildInitRequest(env, pr.price, pr.currency, GatewayMetadata(pr)))]
  {
  }

  /** A refused or unreachable gateway: its status code, else 500; its
      message, else the default; and no payment row. */
  lemma GatewayFailure(db: Db, env: Env, id: string, http: HttpOutcome<InitBody>,
                       now: Timestamp, rowId: string, dbNow: Timestamp)
    requires id != "" && db.online && id in db.products
    requires Present(env.licenseKey) && Present(env.websiteId)
    requires !http.Ok?
    ensures var r := HandleInitialize(db, env, Parsed(Body(Some(id))), http, now, rowId, dbNow);
      && r.db == db && |r.effects| == 2
      && (http.NotOk? ==> r.reply == Rejected(FailureStatus(Some(http.code)),
                                               OrElse(http.body.message, InitFailedMessage), Some(http.code)))
      && (http.Threw? ==> r.reply == Rejected(500, OrElse(Some(ErrorMessage(http.message, UnknownErrorMessage)),
                                                          InitFailedMessage), None))
  {
  }

  /** A successful initiation with a `pay_id`: one `PENDING` row for the
      product's price and currency, and a 200 carrying the gateway's
      redirect URL (or `''`) and `pay_id`. */
  lemma SuccessRecordsPendingPayment(db: Db, env: Env, id: string, body: InitBody,
                                     now: Timestamp, rowId: string, dbNow: Timestamp)
    requires id != "" && db.online && id in db.products
    requires Present(env.licenseKey) && Present(env.websiteId)
    requires Present(body.payId) && body.payId.value !in db.payments
    ensures var r := HandleInitialize(db, env, Parsed(Body(Some(id))), Ok(body), now, rowId, dbNow);
      var pr := db.products[id];
      var row := r.db.payments[body.payId.value];
      && r.db.payments.Keys == db.payments.Keys + {body.payId.value}
      && (forall k :: k in db.payments ==> r.db.payments[k] == db.payments[k])
      && row.status == Pending && row.amount == pr.price && row.currency == pr.currency
      && row.productId == pr.id && row.message == Some(InitialMessage)
      && row.createdAt == dbNow && row.id == rowId
      && row.payId == body.payId.value
      && row.metadata == JsonObject(InitialPayment(pr, body.payId.value, body.paymentUrl, now).metadata)
      && r.reply == Started(OrElse(body.paymentUrl, ""), body.payId)
  {
  }

  /** A successful initiation without a `pay_id` writes nothing yet still
      answers 200. */
  lemma SuccessWithoutPayId(db: Db, env: Env, id: string, body: InitBody,
                            now: Timestamp, rowId: string, dbNow: Timestamp)
    requires id != "" && db.online && id in db.products
    requires Present(env.licenseKey) && Present(env.websiteId)
    requires !Present(body.payId)
    ensures var r := HandleInitialize(db, env, Parsed(Body(Some(id))), Ok(body), now, rowId, dbNow);
      r.db == db && r.reply == Started(OrElse(body.paymentUrl, ""), body.payId)
  {
  }

  /** The reply never depends on the payments table, so the outcome of
      `createPayment` (a row written, or `null` for a taken `pay_id`) cannot
      change it. */
  lemma ReplyIgnoresPayments(db: Db, payments: map<string, PaymentRecord>, env: Env, req: Request<Body>,
                             http: HttpOutcome<InitBody>, now: Timestamp, rowId: string, dbNow: Timestamp)
    ensures HandleInitialize(db, env, req, http, now, rowId, dbNow).reply
         == HandleInitialize(db.(payments := payments), env, req, http, now, rowId, dbNow).reply
  {
  }

  /** Initiating with product "p1" priced 1500000 GNF leaves a `PENDING` row
      of that amount under the issued `pay_id`. */
  lemma InitiationScenario(env: Env, now: Timestamp, dbNow: Timestamp)
    requires Present(env.licenseKey) && Present(env.websiteId)
    ensures
      var pr := Product("p1", "Kit", 1500000, "GNF", "", "", None);
      var db := Db(map["p1" := pr], map[], true);
      var answer := InitBody(Some("pay-1"), Some("https://pay.example/pay-1"), None);
      var r := HandleInitialize(db, env, Parsed(Body(Some("p1"))), Ok(answer), now, "row-1", dbNow);
      && "pay-1" in r.db.payments
      && r.db.payments["pay-1"].status == Pending
      && r.db.payments["pay-1"].amount == 1500000
      && r.reply == Started("https://pay.example/pay-1", Some("pay-1"))
  {
  }
}

=== FILE: poller.dfy ===
/** The client-side status poller of `components/PaymentStatus.tsx`. One
    call of `pollStatus` is a `Tick`: it fetches the status once and then
    stops, or schedules the next call after `PollInterval` milliseconds. The
    timer is a `due` flag and each scheduled call is one more element of the
    stream of fetch outcomes `Drive` consumes.

    A tick compares the attempt counter `seen` against the maximum. In the
    component that value is the `pollCount` captured when the effect ran: the
    effect depends on `payId` only, so every tick reads the mount-time value
    0 while the state counter keeps growing. `Drive` takes both readings: the
    counter frozen at 0 (the component as written) and the counter threaded
    through the ticks (what the 60-second budget evidently intends). */
module Poller {
  import opened Basics
  import opened Statuses

  /** Milliseconds between two ticks. */
  const PollInterval := 5000
  /** Ticks that may be scheduled; 12 * 5 s = 60 s. */
  const MaxPollAttempts := 12

  const FetchFailedMessage := "Impossible de récupérer le statut du paiement"
  const GenericErrorMessage := "Une erreur est survenue"
  /** What `fetchStatus` returns in place of a status when the fetch fails. */
  const ErrorSentinel := Other("ERROR")

  /** The JSON the status endpoint answers with; any field may be absent. */
  datatype StatusReply = StatusReply(
    payId: Option<string>,
    status: Option<Status>,
    amount: Value,
    currency: Value,
    message: Option<string>)

  /** The component's state, plus the teardown flag `isMounted` and whether a
      call of `pollStatus` is due (the immediate first call, or a pending
      timer). */
  datatype Poller = Poller(
    mounted: bool,
    loading: bool,
    shown: Option<StatusReply>,
    error: Option<string>,
    pollCount: nat,
    due: bool)

  /** State after `fetchStatus` and the value it returned. */
  datatype Fetched = Fetched(state: Poller, current: Option<Status>)

  /** The branch `pollStatus` takes after the fetch: stop on a terminal status
      or an exhausted counter, reschedule a retryable status, the inner stop
      at the maximum, or stop on any other status. */
  datatype Decision = Halt | Reschedule | HaltAtMax | HaltUnknown

  /** A finished run: the final state and the number of fetches performed. */
  datatype Run = Run(final: Poller, fetches: nat)

  /** The first render: loading, counter 0, and the first call due at once. */
  function Mount(): (p: Poller)
    ensures p.mounted && p.loading && p.due && p.pollCount == 0
    ensures p.shown == None && p.error == None
  {
    Poller(true, true, None, None, 0, true)
  }

  /** The cleanup of the effect: `isMounted = false` and the timer cleared. */
  function Teardown(p: Poller): (q: Poller)
    ensures !q.mounted && !q.due
    ensures q.loading == p.loading && q.shown == p.shown && q.error == p.error && q.pollCount == p.pollCount
  {
    p.(mounted := false, due := false)
  }

  /** `fetchStatus`: a 2xx answer is shown and its status returned; a non-2xx
      answer or an exception sets the error message and returns `'ERROR'`. */
  function FetchStatus(p: Poller, f: HttpOutcome<StatusReply>): (r: Fetched)
    ensures f.Ok? ==> r.current == f.body.status && r.state == p.(shown := Some(f.body))
    ensures !f.Ok? ==> r.current == Some(ErrorSentinel) && r.state.error.Some?
    ensures f.NotOk? ==> r.state == p.(error := Some(OrElse(f.body.message, FetchFailedMessage)))
    ensures f.Threw? ==> r.state == p.(error := Some(ErrorMessage(f.message, GenericErrorMessage)))
  {
    match f
    case Ok(data) => Fetched(p.(shown := Some(data)), data.status)
    case NotOk(_, data) => Fetched(p.(error := Some(OrElse(data.message, FetchFailedMessage))), Some(ErrorSentinel))
    case Threw(m) => Fetched(p.(error := Some(ErrorMessage(m, GenericErrorMessage))), Some(ErrorSentinel))
  }

  /** The branch structure of `pollStatus`, in the source's order. The bound
      test of the first guard catches every counter at the maximum, so the
      inner "maximum reached" branch can never be taken. */
  function Decide(current: Option<Status>, seen: nat): (d: Decision)
    ensures d != HaltAtMax
    ensures d == Reschedule <==> current.Some? && IsRetryable(current.value) && seen < MaxPollAttempts
  {
    if (current.Some? && IsTerminal(current.value)) || seen >= MaxPollAttempts then Halt
    else if current.Some? && IsRetryable(current.value) then
      (if seen < MaxPollAttempts then Reschedule else HaltAtMax)
    else HaltUnknown
  }

  /** One call of `pollStatus`, reading `seen` as the attempt counter. After
      teardown it does nothing at all. Otherwise it fetches once, and either
      reschedules (counter + 1, one timer) or stops loading with no timer. */
  function Tick(p: Poller, seen: nat, f: HttpOutcome<StatusReply>): (q: Poller)
    ensures !p.mounted ==> q == p
    ensures p.mounted ==> q.mounted
    ensures p.mounted && f.Ok? ==> q.shown == Some(f.body) && q.error == p.error
    ensures p.mounted && !f.Ok? ==> q.shown == p.shown && q.error.Some? && !q.due && !q.loading
    ensures p.mounted && f.Ok? && f.body.status.Some? && IsTerminal(f.body.status.value) ==> !q.due && !q.loading
    ensures p.mounted && seen >= MaxPollAttempts ==> !q.due && !q.loading
    ensures p.mounted ==>
      (q.due <==> f.Ok? && f.body.status.Some? && IsRetryable(f.body.status.value) && seen < MaxPollAttempts)
    ensures p.mounted && q.due ==> q.pollCount == p.pollCount + 1 && q.loading == p.loading
    ensures p.mounted && !q.due ==> q.pollCount == p.pollCount && !q.loading
  {
    if !p.mounted then p
    else
      var fetched := FetchStatus(p.(due := false), f);
      match Decide(fetched.current, seen)
      case Reschedule => fetched.state.(pollCount := p.pollCount + 1, due := true)
      case _ => fetched.state.(loading := false)
  }

  /** Fires due ticks, one per fetch outcome, until none is due or the stream
      ends. With `frozen` every tick reads the mount-time counter 0; without,
      it reads the current counter. */
  function Drive(p: Poller, fs: seq<HttpOutcome<StatusReply>>, frozen: bool): (r: Run)
    ensures r.fetches <= |fs|
    ensures r.final.mounted == p.mounted
    ensures !p.mounted || !p.due ==> r == Run(p, 0)
    decreases |fs|
  {
    if !p.mounted || !p.due || |fs| == 0 then Run(p, 0)
    else
      var q := Tick(p, if frozen then 0 else p.pollCount, fs[0]);
      var rest := Drive(q, fs[1..], frozen);
      Run(rest.final, rest.fetches + 1)
  }

  /** A stream in which the payment never settles. */
  predicate NeverSettles(fs: seq<HttpOutcome<StatusReply>>)
  {
    forall i :: 0 <= i < |fs| ==> fs[i].Ok? && fs[i].body.status.Some? && IsRetryable(fs[i].body.status.value)
  }

  /** After teardown no tick fetches or changes anything, whatever arrives. */
  lemma TornDownPollerIsInert(p: Poller, seen: nat, f: HttpOutcome<StatusReply>,
                              fs: seq<HttpOutcome<StatusReply>>, frozen: bool)
    ensures Tick(Teardown(p), seen, f) == Teardown(p)
    ensures Drive(Teardown(p), fs, frozen) == Run(Teardown(p), 0)
  {
  }

  /** With the counter threaded through the ticks, a poller whose counter is
      within budget performs at most 13 - counter further fetches and never
      schedules past the 12th tick; given enough outcomes it always stops,
      with loading cleared. */
  lemma {:induction false} ThreadedBound(p: Poller, fs: seq<HttpOutcome<StatusReply>>)
    requires p.mounted && p.pollCount <= MaxPollAttempts
    ensures var r := Drive(p, fs, false);
      && r.fetches <= MaxPollAttempts + 1 - p.pollCount
      && p.pollCount <= r.final.pollCount <= MaxPollAttempts
    ensures p.due && |fs| >= MaxPollAttempts + 1 - p.pollCount ==>
      !Drive(p, fs, false).final.due && !Drive(p, fs, false).final.loading
    decreases |fs|
  {
    if p.due && |fs| > 0 {
      var q := Tick(p, p.pollCount, fs[0]);
      if q.due {
        ThreadedBound(q, fs[1..]);
      }
    }
  }

  /** From mount, with the counter threaded: at most 13 fetches and 12
      scheduled delays, 60 seconds of waiting in all. */
  lemma MountedPollerIsBounded(fs: seq<HttpOutcome<StatusReply>>)
    ensures var r := Drive(Mount(), fs, false);
      && r.fetches <= MaxPollAttempts + 1
      && r.final.pollCount <= MaxPollAttempts
      && r.final.pollCount * PollInterval <= 60000
    ensures |fs| >= MaxPollAttempts + 1 ==> !Drive(Mount(), fs, false).final.loading
  {
    ThreadedBound(Mount(), fs);
  }

  /** With the counter threaded, a payment that never settles is fetched
      exactly 13 - counter more times, the counter ends at 12, and polling
      stops. */
  lemma {:induction false} ThreadedUnsettledStream(p: Poller, fs: seq<HttpOutcome<StatusReply>>)
    requires p.mounted && p.due && p.pollCount <= MaxPollAttempts
    requires NeverSettles(fs) && |fs| >= MaxPollAttempts + 1 - p.pollCount
    ensures var r := Drive(p, fs, false);
      && r.fetches == MaxPollAttempts + 1 - p.pollCount
      && r.final.pollCount == MaxPollAttempts
      && !r.final.due && !r.final.loading
      && r.final.shown == Some(fs[r.fetches - 1].body)
      && r.final.error == p.error
    decreases |fs|
  {
    var q := Tick(p, p.pollCount, fs[0]);
    if q.due {
      assert NeverSettles(fs[1..]) by {
        forall i | 0 <= i < |fs[1..]|
          ensures fs[1..][i].Ok? && fs[1..][i].body.status.Some? && IsRetryable(fs[1..][i].body.status.value)
        {
          assert fs[1..][i] == fs[i + 1];
        }
      }
      ThreadedUnsettledStream(q, fs[1..]);
      var rest := Drive(q, fs[1..], false);
      assert fs[1..][rest.fetches - 1] == fs[rest.fetches];
    }
  }

  /** The component as written: with the counter frozen at 0 a payment that
      never settles is polled for as long as outcomes arrive, the state
      counter passing 12 while loading stays on. */
  lemma {:induction false} FrozenUnsettledStream(p: Poller, fs: seq<HttpOutcome<StatusReply>>)
    requires p.mounted && p.due
    requires NeverSettles(fs)
    ensures var r := Drive(p, fs, true);
      && r.fetches == |fs|
      && r.final.due
      && r.final.loading == p.loading
      && r.final.pollCount == p.pollCount + |fs|
    decreases |fs|
  {
    if |fs| > 0 {
      var q := Tick(p, 0, fs[0]);
      assert NeverSettles(fs[1..]) by {
        forall i | 0 <= i < |fs[1..]|
          ensures fs[1..][i].Ok? && fs[1..][i].body.status.Some? && IsRetryable(fs[1..][i].body.status.value)
        {
          assert fs[1..][i] == fs[i + 1];
        }
      }
      FrozenUnsettledStream(q, fs[1..]);
    }
  }

  /** The pending panel with its retry button shows once polling has stopped
      on a `PENDING` status with the counter at the maximum and no error. */
  predicate ShowsStillPending(p: Poller)
  {
    && !p.loading
    && !Present(p.error)
    && p.shown.Some? && p.shown.value.status.Some? && StatusName(p.shown.value.status.value) == PendingName
    && p.pollCount >= MaxPollAttempts
  }

  /** The four things the component renders. */
  datatype Panel = Spinner | ErrorPanel | PendingPanel | ResultPanel

  /** The render chain: the spinner while loading, else the error when it is
      truthy, else the pending panel once the counter reached the maximum on
      a `PENDING` status, else the result card. */
  function Screen(p: Poller): (s: Panel)
    ensures s == Spinner <==> p.loading
    ensures s == ErrorPanel <==> !p.loading && Present(p.error)
    ensures s == PendingPanel <==> ShowsStillPending(p)
    ensures s == ResultPanel <==> !p.loading && !Present(p.error) && !ShowsStillPending(p)
  {
    if p.loading then Spinner
    else if Present(p.error) then ErrorPanel
    else if p.shown.Some? && p.shown.value.status.Some? && StatusName(p.shown.value.status.value) == PendingName
            && p.pollCount >= MaxPollAttempts then PendingPanel
    else ResultPanel
  }

  /** The button "Vérifier à nouveau" as written: loading on, counter reset,
      one fetch. Nothing schedules a tick and nothing clears loading again. */
  function Retry(p: Poller, f: HttpOutcome<StatusReply>): (q: Poller)
    ensures q.loading && q.pollCount == 0 && q.due == p.due && q.mounted == p.mounted
    ensures f.Ok? ==> q.shown == Some(f.body) && q.error == p.error
    ensures !f.Ok? ==> q.shown == p.shown && q.error.Some?
  {
    FetchStatus(p.(loading := true, pollCount := 0), f).state
  }

  /** A retry from a stopped poller leaves it loading for good: no further
      outcome is ever fetched, whatever the stream. */
  lemma RetryStaysLoading(p: Poller, f: HttpOutcome<StatusReply>, fs: seq<HttpOutcome<StatusReply>>, frozen: bool)
    requires !p.due
    ensures Drive(Retry(p, f), fs, frozen) == Run(Retry(p, f), 0)
    ensures Drive(Retry(p, f), fs, frozen).final.loading
  {
  }

  /** The retry the pending panel evidently intends: loading on, counter
      reset, and polling restarted with an immediate tick. */
  function Restart(p: Poller): (q: Poller)
    ensures q.loading && q.due && q.pollCount == 0 && q.mounted == p.mounted
    ensures q.shown == p.shown && q.error == p.error
  {
    p.(loading := true, pollCount := 0, due := true)
  }

  /** A restarted poller, counter threaded, polls again within the same
      budget and stops, loading cleared, once 13 outcomes are available. */
  lemma RestartSettles(p: Poller, fs: seq<HttpOutcome<StatusReply>>)
    requires p.mounted
    ensures var r := Drive(Restart(p), fs, false);
      r.fetches <= MaxPollAttempts + 1 && r.final.pollCount <= MaxPollAttempts
    ensures |fs| >= MaxPollAttempts + 1 ==>
      !Drive(Restart(p), fs, false).final.due && !Drive(Restart(p), fs, false).final.loading
  {
    ThreadedBound(Restart(p), fs);
  }

  /** With the counter threaded, 13 `PENDING` answers from mount end on the
      pending panel; with the counter frozen, the same answers leave the
      spinner on and a 14th tick due. */
  lemma PendingPanelReachability(fs: seq<HttpOutcome<StatusReply>>)
    requires |fs| == MaxPollAttempts + 1
    requires forall i :: 0 <= i < |fs| ==> fs[i] == Ok(StatusReply(None, Some(Pending), Undefined, Undefined, None))
    ensures ShowsStillPending(Drive(Mount(), fs, false).final)
    ensures Drive(Mount(), fs, true).final.loading && Drive(Mount(), fs, true).final.due
  {
    assert NeverSettles(fs);
    ThreadedUnsettledStream(Mount(), fs);
    FrozenUnsettledStream(Mount(), fs);
  }

  /** A stream in which every exception that is an `Error` carries a
      non-empty message, so that a failed fetch always leaves a truthy error. */
  predicate ErrorsCarryText(fs: seq<HttpOutcome<StatusReply>>)
  {
    forall i :: 0 <= i < |fs| && fs[i].Threw? && fs[i].message.Some? ==> fs[i].message.value != ""
  }

  /** With the counter frozen at 0, a loading poller never comes to rest on
      the pending panel: it stops only on a status other than `PENDING` or
      `CANCELLED`, or on a failed fetch that leaves an error shown. */
  lemma {:induction false} FrozenNeverStopsOnPending(p: Poller, fs: seq<HttpOutcome<StatusReply>>)
    requires p.mounted && p.due && p.loading
    requires ErrorsCarryText(fs)
    ensures !ShowsStillPending(Drive(p, fs, true).final)
    decreases |fs|
  {
    if |fs| > 0 {
      var q := Tick(p, 0, fs[0]);
      if q.due {
        assert ErrorsCarryText(fs[1..]) by {
          forall i | 0 <= i < |fs[1..]| && fs[1..][i].Threw? && fs[1..][i].message.Some?
            ensures fs[1..][i].message.value != ""
          {
            assert fs[1..][i] == fs[i + 1];
          }
        }
        FrozenNeverStopsOnPending(q, fs[1..]);
      } else {
        assert Drive(q, fs[1..], true).final == q;
        if !fs[0].Ok? {
          assert Present(q.error);
        }
      }
    }
  }

  /** The component as written never renders the pending panel, and so never
      offers its retry button, unless a fetch throws an `Error` whose message
      is empty. */
  lemma FrozenNeverShowsPendingPanel(fs: seq<HttpOutcome<StatusReply>>)
    requires ErrorsCarryText(fs)
    ensures !ShowsStillPending(Drive(Mount(), fs, true).final)
  {
    FrozenNeverStopsOnPending(Mount(), fs);
  }

  /** The identifier as displayed: longer than 20 characters, its first 10
      and last 10 around an ellipsis; otherwise unchanged. */
  function ShortPayId(payId: string): (r: string)
    ensures |payId| <= 20 ==> r == payId
    ensures |payId| > 20 ==> |r| == 23 && r[..10] == payId[..10] && r[10..13] == "..." && r[13..] == payId[|payId| - 10..]
  {
    if |payId| > 20 then payId[..10] + "..." + payId[|payId| - 10..] else payId
  }

  /** Shortening is idempotent and never makes an identifier longer than 23
      characters. */
  lemma ShortPayIdIdempotent(payId: string)
    ensures ShortPayId(ShortPayId(payId)) == ShortPayId(payId)
    ensures |ShortPayId(payId)| <= 23
  {
  }
}

=== FILE: statuses.dfy ===
/** Payment status values. The source declares a four-value string union but
    casts whatever text arrives (from the gateway or a callback) without
    checking it, so any other text is kept verbatim in `Other`. */
module Statuses {

  datatype Status = Pending | Success | Failed | Cancelled | Other(raw: string)

  const PendingName := "PENDING"
  const SuccessName := "SUCCESS"
  const FailedName := "FAILED"
  const CancelledName := "CANCELLED"

  predicate IsKnownName(s: string)
  {
    s == PendingName || s == SuccessName || s == FailedName || s == CancelledName
  }

  /** A status value that some text parses to: `Other` never holds a known name. */
  predicate Canonical(st: Status)
  {
    st.Other? ==> !IsKnownName(st.raw)
  }

  /** The unchecked cast `text as PaymentStatus['status']`. */
  function ParseStatus(s: string): (st: Status)
    ensures Canonical(st)
    ensures st.Other? <==> !IsKnownName(s)
    ensures StatusName(st) == s
  {
    if s == PendingName then Pending
    else if s == SuccessName then Success
    else if s == FailedName then Failed
    else if s == CancelledName then Cancelled
    else Other(s)
  }

  /** The text a status value is stored and transmitted as. */
  function StatusName(st: Status): string
  {
    match st
    case Pending => PendingName
    case Success => SuccessName
    case Failed => FailedName
    case Cancelled => CancelledName
    case Other(raw) => raw
  }

  /** The cast loses nothing: every text is transmitted back unchanged. */
  lemma NameOfParse(s: string)
    ensures StatusName(ParseStatus(s)) == s
  {
  }

  /** Every canonical status survives a trip through its text. */
  lemma ParseOfName(st: Status)
    requires Canonical(st)
    ensures ParseStatus(StatusName(st)) == st
  {
  }

  /** `SUCCESS` and `FAILED` end a payment; `PENDING` and `CANCELLED` are
      polled again. Both are tested on the status's text, as the component's
      string comparisons do, so a value holding a known name in `Other`
      classifies like that name. */
  predicate IsTerminal(st: Status)
  {
    StatusName(st) == SuccessName || StatusName(st) == FailedName
  }

  predicate IsRetryable(st: Status)
  {
    StatusName(st) == PendingName || StatusName(st) == CancelledName
  }

  /** On the values the cast produces, the classes are the named statuses. */
  lemma ClassesOfCanonical(st: Status)
    requires Canonical(st)
    ensures IsTerminal(st) <==> st == Success || st == Failed
    ensures IsRetryable(st) <==> st == Pending || st == Cancelled
  {
  }
}

=== FILE: store.dfy ===
/** The data-access layer of `lib/supabase.ts`, with the hosted database
    replaced by two maps: products keyed by `id` and payments keyed by
    `pay_id`. Every query that fails at the database (for instance while it is
    unreachable, `online == false`) comes back as `null` or `[]` rather than as
    an exception, exactly as the source's `if (error) return null` branches do. */
module Store {
  import opened Basics
  import opened Statuses

  const UnknownProductName := "Produit inconnu"

  datatype Product = Product(
    id: string,
    name: string,
    price: int,
    currency: string,
    description: string,
    image: string,
    createdAt: Option<Timestamp>)

  datatype PaymentRecord = PaymentRecord(
    id: string,
    productId: string,
    payId: string,
    amount: int,
    currency: string,
    status: Status,
    message: Option<string>,
    metadata: Metadata,
    createdAt: Timestamp,
    updatedAt: Timestamp)

  /** The argument of `createPayment`: a payment row without the columns the
      database fills in (`id`, `created_at`, `updated_at`). */
  datatype NewPayment = NewPayment(
    productId: string,
    payId: string,
    amount: int,
    currency: string,
    status: Status,
    message: Option<string>,
    metadata: Metadata)

  /** A payment row as listed by `getAllPayments`: joined with its product's name. */
  datatype PaymentView = PaymentView(record: PaymentRecord, productName: string)

  datatype Db = Db(products: map<string, Product>, payments: map<string, PaymentRecord>, online: bool)

  /** The store after a write and the row the write returned (`null` is `None`). */
  datatype Written = Written(db: Db, row: Option<PaymentRecord>)

  /** Each row sits under its own key. The payments schema is not part of this
      model; uniqueness of `pay_id` is assumed, which is what keying the map by
      it expresses. */
  predicate WellKeyed(db: Db)
  {
    && (forall k :: k in db.products ==> db.products[k].id == k)
    && (forall k :: k in db.payments ==> db.payments[k].payId == k)
  }

  /** `getProductById`: the product with that id, or `null` when there is none
      or the query fails. */
  function GetProductById(db: Db, id: string): (r: Option<Product>)
    ensures r.Some? <==> db.online && id in db.products
    ensures r.Some? ==> r.value == db.products[id]
    ensures r.Some? && WellKeyed(db) ==> r.value.id == id
  {
    if db.online && id in db.products then Some(db.products[id]) else None
  }

  /** `getPaymentByPayId`: the payment with that `pay_id`, or `null`. */
  function GetPaymentByPayId(db: Db, payId: string): (r: Option<PaymentRecord>)
    ensures r.Some? <==> db.online && payId in db.payments
    ensures r.Some? ==> r.value == db.payments[payId]
    ensures r.Some? && WellKeyed(db) ==> r.value.payId == payId
  {
    if db.online && payId in db.payments then Some(db.payments[payId]) else None
  }

  /** `createPayment`: inserts the row with a database-chosen `id` and both
      timestamps set to `now`, and returns it; on error (unreachable database,
      or a `pay_id` that is already taken) returns `null` and writes nothing. */
  function CreatePayment(db: Db, p: NewPayment, id: string, now: Timestamp): (r: Written)
    ensures r.row.Some? <==> db.online && p.payId !in db.payments
    ensures r.row.None? ==> r.db == db
    ensures r.row.Some? ==>
      var row := r.row.value;
      && row == PaymentRecord(id, p.productId, p.payId, p.amount, p.currency, p.status, p.message,
                              JsonObject(p.metadata), now, now)
      && r.db == db.(payments := db.payments[p.payId := row])
    ensures WellKeyed(db) ==> WellKeyed(r.db)
  {
    if !db.online || p.payId in db.payments then Written(db, None)
    else
      var row := PaymentRecord(id, p.productId, p.payId, p.amount, p.currency, p.status, p.message,
                               JsonObject(p.metadata), now, now);
      Written(db.(payments := db.payments[p.payId := row]), Some(row))
  }

  /** `updatePaymentStatus`: on the row with that `pay_id`, replaces `status`,
      `message` and `metadata` by the given values (the metadata object is
      written as a whole, not merged into the stored one) and sets `updated_at`
      to `now`; returns the updated row, or `null` when no row matches or the
      query fails, in which case nothing is written. */
  function UpdatePaymentStatus(db: Db, payId: string, status: Status, message: Option<string>,
                               metadata: Metadata, now: Timestamp): (r: Written)
    ensures r.row.Some? <==> db.online && payId in db.payments
    ensures r.row.None? ==> r.db == db
    ensures r.row.Some? ==>
      var before := db.payments[payId];
      var row := r.row.value;
      && row.status == status && row.message == message && row.metadata == JsonObject(metadata)
      && row.updatedAt == now
      && row.id == before.id && row.productId == before.productId && row.payId == before.payId
      && row.amount == before.amount && row.currency == before.currency
      && row.createdAt == before.createdAt
      && r.db.payments == db.payments[payId := row]
    ensures r.db.products == db.products && r.db.online == db.online
    ensures WellKeyed(db) ==> WellKeyed(r.db)
  {
    if !db.online || payId !in db.payments then Written(db, None)
    else
      var row := db.payments[payId].(status := status, message := message,
                                     metadata := JsonObject(metadata), updatedAt := now);
      Written(db.(payments := db.payments[payId := row]), Some(row))
  }

  /** `updatePaymentStatus(pay_id, status)` with both optional arguments
      omitted: the message becomes `null` and the metadata `{}`. */
  function UpdatePaymentStatusDefaults(db: Db, payId: string, status: Status, now: Timestamp): (r: Written)
    ensures r.row.Some? <==> db.online && payId in db.payments
    ensures r.row.Some? ==> r.row.value.message == None && r.row.value.metadata == map[]
  {
    UpdatePaymentStatus(db, payId, status, None, map[], now)
  }

  /** Rows other than the updated one are untouched by an update. */
  lemma UpdateTouchesOneRow(db: Db, payId: string, status: Status, message: Option<string>,
                            metadata: Metadata, now: Timestamp, other: string)
    requires other != payId
    ensures var r := UpdatePaymentStatus(db, payId, status, message, metadata, now);
      (other in r.db.payments <==> other in db.payments)
      && (other in db.payments ==> r.db.payments[other] == db.payments[other])
  {
  }

  /** The update replaces metadata: a stored key the new metadata does not
      carry is gone afterwards. */
  lemma UpdateDropsOldMetadata(db: Db, payId: string, status: Status, message: Option<string>,
                               metadata: Metadata, now: Timestamp, key: string)
    requires db.online && payId in db.payments
    requires key in db.payments[payId].metadata && key !in metadata
    ensures var r := UpdatePaymentStatus(db, payId, status, message, metadata, now);
      key !in r.db.payments[payId].metadata
  {
  }

  /** A row written by `createPayment` is what `getPaymentByPayId` then
      returns for its `pay_id`. */
  lemma CreateThenRead(db: Db, p: NewPayment, id: string, now: Timestamp)
    ensures var r := CreatePayment(db, p, id, now);
      r.row.Some? ==> GetPaymentByPayId(r.db, p.payId) == r.row
  {
  }

  /** A row returned by `updatePaymentStatus` is what `getPaymentByPayId`
      then returns for its `pay_id`. */
  lemma UpdateThenRead(db: Db, payId: string, status: Status, message: Option<string>,
                       metadata: Metadata, now: Timestamp)
    ensures var r := UpdatePaymentStatus(db, payId, status, message, metadata, now);
      r.row.Some? ==> GetPaymentByPayId(r.db, payId) == r.row
  {
  }

  /** The display name joined to a payment: its product's name, or the placeholder when the product is missing or unnamed. */
  function ProductName(db: Db, productId: string): (name: string)
    ensures productId in db.products && db.products[productId].name != "" ==>
            name == db.products[productId].name
    ensures productId in db.products && db.products[productId].name == "" ==> name == UnknownProductName
    ensures productId !in db.products ==> name == UnknownProductName
  {
    if productId in db.products && db.products[productId].name != "" then db.products[productId].name
    else UnknownProductName
  }

  /** `getLatestPayment`: a payment with the greatest `created_at`, or `null`
      when there is none (`.single()` on zero rows is an error) or the query
      fails. Ties between equal timestamps are broken by the database in an
      unspecified way, so any maximal row is allowed. */
  method GetLatestPayment(db: Db) returns (r: Option<PaymentRecord>)
    ensures r.None? <==> !db.online || db.payments == map[]
    ensures r.Some? ==> r.value in db.payments.Values
    ensures r.Some? ==> forall q :: q in db.payments.Values ==> q.createdAt <= r.value.createdAt
  {
    if !db.online || db.payments == map[] {
      return None;
    }
    var first :| first in db.payments;
    var best := db.payments[first];
    var rest := db.payments.Keys - {first};
    while rest != {}
      invariant rest <= db.payments.Keys
      invariant best in db.payments.Values
      invariant forall k :: k in db.payments && k !in rest ==> db.payments[k].createdAt <= best.createdAt
      decreases rest
    {
      var k :| k in rest;
      if db.payments[k].createdAt > best.createdAt {
        best := db.payments[k];
      }
      rest := rest - {k};
    }
    return Some(best);
  }

  /** Keys of `m` listed newest payment first. */
  predicate NewestFirst(m: map<string, PaymentRecord>, ks: seq<string>)
  {
    && (forall i :: 0 <= i < |ks| ==> ks[i] in m)
    && (forall i, j :: 0 <= i < j < |ks| ==> m[ks[i]].createdAt >= m[ks[j]].createdAt)
  }

  /** Places one more key into a newest-first listing. */
  function InsertNewestFirst(m: map<string, PaymentRecord>, k: string, ks: seq<string>): (r: seq<string>)
    requires k in m && NewestFirst(m, ks)
    ensures NewestFirst(m, r)
    ensures |r| == |ks| + 1
    ensures forall x :: x in r <==> x in ks || x == k
  {
    if ks == [] then [k]
    else if m[k].createdAt >= m[ks[0]].createdAt then [k] + ks
    else
      var tail := InsertNewestFirst(m, k, ks[1..]);
      assert forall x :: x in tail ==> m[ks[0]].createdAt >= m[x].createdAt by {
        forall x | x in tail
          ensures m[ks[0]].createdAt >= m[x].createdAt
        {
          if x != k {
            var j :| 0 <= j < |ks[1..]| && ks[1..][j] == x;
            assert ks[j + 1] == x;
          }
        }
      }
      [ks[0]] + tail
  }

  /** The stored keys, newest payment first (the `order('created_at',
      { ascending: false })` of the query). */
  method OrderNewestFirst(m: map<string, PaymentRecord>) returns (ordered: seq<string>)
    ensures NewestFirst(m, ordered)
    ensures forall k :: k in ordered <==> k in m
    ensures |ordered| == |m|
  {
    var rest := m.Keys;
    ordered := [];
    while rest != {}
      invariant rest <= m.Keys
      invariant NewestFirst(m, ordered)
      invariant forall k :: k in ordered <==> k in m && k !in rest
      invariant |ordered| + |rest| == |m.Keys|
      decreases rest
    {
      var k :| k in rest;
      ordered := InsertNewestFirst(m, k, ordered);
      rest := rest - {k};
    }
  }

  /** `getAllPayments`: every payment exactly as often as it is stored, newest
      first, each joined with its product's display name; `[]` when the query
      fails. */
  method GetAllPayments(db: Db) returns (rows: seq<PaymentView>)
    ensures !db.online ==> rows == []
    ensures db.online ==> |rows| == |db.payments|
    ensures forall i :: 0 <= i < |rows| ==> rows[i].record in db.payments.Values
    ensures db.online ==> forall k :: k in db.payments ==>
              exists i :: 0 <= i < |rows| && rows[i].record == db.payments[k]
    ensures forall i, j :: 0 <= i < j < |rows| ==> rows[i].record.createdAt >= rows[j].record.createdAt
    ensures forall i :: 0 <= i < |rows| ==> rows[i].productName == ProductName(db, rows[i].record.productId)
  {
    if !db.online {
      return [];
    }
    var m := db.payments;
    var ordered := OrderNewestFirst(m);
    rows := seq(|ordered|, i requires 0 <= i < |ordered| =>
                PaymentView(m[ordered[i]], ProductName(db, m[ordered[i]].productId)));
    forall k | k in m
      ensures exists j :: 0 <= j < |rows| && rows[j].record == m[k]
    {
      var j :| 0 <= j < |ordered| && ordered[j] == k;
      assert rows[j].record == m[k];
    }
  }
}

=== FILE: utils.dfy ===
/** The text helper of `lib/utils.ts` that does not depend on locale
    formatting: `truncateText`. */
module Utils {

  const Ellipsis := "..."
  const DefaultMaxLength := 50

  /** The number of characters `text.substring(0, n)` keeps: JavaScript clamps
      a negative bound to 0 and one past the end to the length. */
  function Clamp(n: int, len: nat): (k: nat)
    ensures k <= len
    ensures 0 <= n <= len ==> k == n
  {
    if n < 0 then 0 else if n > len then len else n
  }

  /** `truncateText(text, maxLength)`: the empty text gives the empty text, a
      text that fits is returned as is, a longer one is cut to `maxLength`
      characters followed by an ellipsis. */
  function TruncateText(text: string, maxLength: int): (r: string)
    ensures text == "" ==> r == ""
    ensures |text| <= maxLength ==> r == text
    ensures 0 <= maxLength < |text| ==> r == text[..maxLength] + Ellipsis && |r| == maxLength + 3
    ensures maxLength < 0 && text != "" ==> r == Ellipsis
    ensures r[..Clamp(maxLength, |text|)] == text[..Clamp(maxLength, |text|)]
  {
    if text == "" then ""
    else if |text| <= maxLength then text
    else text[..Clamp(maxLength, |text|)] + Ellipsis
  }

  /** `truncateText(text)` with the default bound. */
  function TruncateTextDefault(text: string): (r: string)
    ensures |text| <= 50 ==> r == text
    ensures |text| > 50 ==> |r| == 53 && r[..50] == text[..50] && r[50..] == Ellipsis
  {
    TruncateText(text, DefaultMaxLength)
  }

  /** The result never exceeds the bound by more than the ellipsis. */
  lemma TruncateTextLength(text: string, maxLength: int)
    ensures |TruncateText(text, maxLength)| <= |text| + 3
    ensures |TruncateText(text, maxLength)| <= (if maxLength < 0 then 0 else maxLength) + 3
  {
  }

  /** Truncating twice with the same bound is truncating once, for every bound
      (a cut text is longer than the bound, so it is cut again at the same
      place). */
  lemma TruncateTextIdempotent(text: string, maxLength: int)
    ensures TruncateText(TruncateText(text, maxLength), maxLength) == TruncateText(text, maxLength)
  {
  }
}
